=== FILE: README.md ===
# group-by, modelled in Dafny

The repository provides one function, `groupBy(list, property)` in
`src/index.ts`. It walks the array once. For each item it reads the key
`item[property]` and looks that key up in a JavaScript `Map`. An absent key is
set to the one-element array `[item]`; a present key has `item` pushed onto its
array. It returns the `Map`.

This project models that function and proves what it guarantees:

- `AssocList` (`assoc_list.dfy`) models the `Map` as a sequence of
  (key, value) pairs with distinct keys, in insertion order. `Get` models
  `map.get` and `Set` models `map.set`. Setting an existing key keeps its
  position; setting a new key appends it.
- `GroupingSpec` (`grouping_spec.dfy`) is a reference definition that does not
  use the fold. `IsGrouping` says what a correct result is:
  - keys are distinct;
  - a key is present exactly when some item has it;
  - each bucket is the input filtered to that key, in input order;
  - keys are ordered by their first occurrence in the input.
- `Grouper` (`grouper.dfy`) holds `Step`, one iteration of the `forEach`
  body, and `GroupBy`, the left fold of `Step` over the list. Its lemmas
  prove that `GroupBy` satisfies `IsGrouping` and that it is the only
  sequence that does.
- `GrouperLoop` (`grouper_loop.dfy`) mirrors the loop imperatively. Its loop
  invariant ties it to `GroupBy` after each prefix of the input.
- `GrouperCases` (`examples.dfy`) states one loop step on a new key
  (`StepNew`) and on an existing key (`StepExisting`), and works out groupings
  of two and three items. `Examples` (same file) applies them to the records
  of the test suite.

The key read `item[property]` is modelled as an arbitrary total function
`key: V -> K`, with keys compared by `==`. On the records of the test suite,
`Examples.UserProperty` and `Examples.ProductProperty` define that read: a
user's `name` or `role` and a product's `name` give a string, and any other
name not inherited from `Object.prototype` gives `undefined`.

## Code and tests disagree

The code reads one top-level property and never throws for an item that is
not `null` or `undefined`. Four tests in
`src/__test__/index.test.ts` expect more:

- lines 53-56 and 77-80 expect the dotted paths `'category.type'` and
  `'category.type.name'` to be resolved;
- lines 87-90 expect a selector function to be called;
- lines 58-60 expect an unknown property name to throw.

The model follows the code:

- `Examples.UnknownPropertyGroupsUnderUndefined` proves that every item then
  lands in one `undefined` bucket, rather than the call throwing;
- `Examples.DottedPathIsNotResolved` proves the same for a dotted path.

## Model

| member | source | states |
|---|---|---|
| AssocList.IndexOf | src/index.ts:32 | the lookup behind `map.get` finds the first entry with the key, and returns nothing exactly when the key is not among the map's keys |
| AssocList.Get | src/index.ts:32 | `map.get(k)` is undefined exactly when `k` is not a key; in a map with distinct keys it returns the value stored at the entry for `k` |
| AssocList.Set | src/index.ts:34 | `map.set(k, v)` keeps the key order when `k` is present and appends `k` last when it is new; afterwards `k` maps to `v`; entries for other keys stay in place, unchanged; keys stay distinct |
| Grouper.Step | src/index.ts:31-37 | one loop step touches only the bucket of the item's key: a new key is appended last with bucket `[item]`; otherwise that bucket is extended by `item`; every other entry and the order are unchanged; well-formedness is preserved |
| Grouper.GroupBy | src/index.ts:29-39 | the result has distinct keys, every bucket is non-empty, every item sits under its own key, there are no more keys than items, and the result is empty exactly when the input is |
| Grouper.GroupByKeys | src/index.ts:30-38 | a key is in the result exactly when some input item has that key: no extra keys, none missing |
| Grouper.GroupByBuckets | src/index.ts:33-36 | each bucket equals the input filtered to the items with that key, in their original relative order (stable grouping) |
| Grouper.GroupByOrder | src/index.ts:32-34 | keys appear in order of their first occurrence in the input |
| Grouper.GroupByLookup | src/index.ts:29-39 | looking any key up in the result gives the items with that key, or nothing when no item has that key |
| Grouper.GroupByPermutation | src/index.ts:30-38 | the buckets laid end to end are a permutation (equal multiset) of the input |
| Grouper.GroupBySize | src/index.ts:30-38 | the bucket lengths add up to the length of the input |
| Grouper.GroupByIsGrouping | src/index.ts:25-40 | the result meets the reference definition of a grouping: distinct keys, exactly the occurring keys, filtered buckets, first-occurrence order |
| Grouper.GroupByUnique | src/index.ts:25-40 | any ordered map that meets the reference definition for a list is the result of grouping that list, so the definition determines the output completely |
| Grouper.GroupByConstantKey | src/index.ts:29-39 | when every item of a non-empty list has the same key, the result is one bucket holding the whole list in order |
| GrouperLoop.FindKey | src/index.ts:32 | the scan for a key returns the position of its entry, or nothing when the key is absent, agreeing with the functional lookup |
| GrouperLoop.GroupByLoop | src/index.ts:29-39 | the imperative loop returns exactly the fold's result, so its output meets the reference definition of a grouping |
| Examples.GroupUsersByRole | src/__test__/index.test.ts:29-32 | grouping Alice (admin), Bob (user) and Charlie (admin) by role gives `admin` with Alice and Charlie, then `user` with Bob |
| Examples.GroupUsersByName | src/__test__/index.test.ts:34-37 | grouping the same users by name gives three one-user buckets in input order |
| Examples.UnknownPropertyGroupsUnderUndefined | src/index.ts:31 | reading a property the users lack gives `undefined` for every user, so the result is one `undefined` bucket holding all of them, and no error |
| Examples.DottedPathIsNotResolved | src/index.ts:31 | `'category.type'` is read as a single property name, so every product lands in the one `undefined` bucket |

## Left out

- JavaScript `Map` internals are left out. So are the `as K` cast and the type constraints `K extends PropertyKey` and `keyof V`. These are type-level artefacts; the model uses a key function and an equality type instead.
- `item[property]` on arbitrary records becomes the abstract function `key`. JavaScript's SameValueZero key equality (for example for `NaN`) becomes Dafny `==`.
- `collection.push` mutates the array that the map stores, and the model replaces that bucket with a longer one. The arrays are created inside the call, so no caller can see the difference.
- Dotted-path resolution, selector functions and throwing are not modelled, because `src/index.ts` does none of them.
- The code never checks whether a key is truthy (it tests `!collection`, src/index.ts:33), so a key `0`, `''` or `false` gets its own bucket like any other key.
- A `null` or `undefined` item, for which `item[property]` throws a `TypeError` (src/index.ts:31), and a property getter that throws are not modelled: `key` is a total function.
- The input array is a dense `seq<V>`. The holes of a sparse array, which `forEach` skips (src/index.ts:30), are not represented, so the "length of the input" in `GroupBySize` is the number of elements present.
- Reading a name inherited from `Object.prototype` (such as `'toString'` or `'__proto__'`) yields a function or an object, not `undefined`. `UserProperty` and `ProductProperty` exclude these names with `InheritedName`.
- The numbers test (`src/__test__/index.test.ts:87-90`) has no example lemma. It passes a function where a property name is expected. The code would read a property named by that function, which numbers lack; `GroupByConstantKey` covers the resulting single bucket.
- The product examples do not use `category` itself as a key. Its value is an object, and JavaScript compares objects by identity, which this model does not represent.
- The Jest test harness is not modelled.

=== FILE: assoc_list.dfy ===
/**
 An insertion-ordered association list: the model of the JavaScript `Map` that
 `groupBy` builds. A `Map` iterates its entries in the order their keys were
 first set, and setting an existing key replaces its value without moving it;
 a sequence of (key, value) pairs with distinct keys captures both.
 */
module AssocList {

  datatype Option<+T> = None | Some(value: T)

  type Assoc<K, V> = seq<(K, V)>

  /** The keys of `m`, in iteration order. */
  function Keys<K, V>(m: Assoc<K, V>): (ks: seq<K>)
    ensures |ks| == |m|
    ensures forall i :: 0 <= i < |m| ==> ks[i] == m[i].0
  {
    seq(|m|, i requires 0 <= i < |m| => m[i].0)
  }

  /** A `Map` holds at most one entry per key. */
  predicate DistinctKeys<K(==), V>(m: Assoc<K, V>) {
    forall i, j :: 0 <= i < j < |m| ==> m[i].0 != m[j].0
  }

  /** Position of the first entry whose key is `k`, scanning in iteration order. */
  function IndexOf<K(==), V>(m: Assoc<K, V>, k: K): (r: Option<nat>)
    ensures r.Some? ==> r.value < |m| && m[r.value].0 == k
    ensures r.Some? ==> forall j :: 0 <= j < r.value ==> m[j].0 != k
    ensures r.None? <==> k !in Keys(m)
  {
    if |m| == 0 then None
    else if m[0].0 == k then Some(0)
    else
      match IndexOf(m[1..], k)
      case None => None
      case Some(j) => Some(j + 1)
  }

  /** `map.get(k)`: the value stored under `k`, or `None` (JavaScript's `undefined`). */
  function Get<K(==), V>(m: Assoc<K, V>, k: K): (r: Option<V>)
    ensures r.None? <==> k !in Keys(m)
    ensures DistinctKeys(m) ==> forall i :: 0 <= i < |m| && m[i].0 == k ==> r == Some(m[i].1)
  {
    match IndexOf(m, k)
    case None => None
    case Some(i) => Some(m[i].1)
  }

  /**
   `map.set(k, v)`: replaces the value of an existing key where it stands, or
   appends a new entry after all existing ones.
   */
  function Set<K(==), V>(m: Assoc<K, V>, k: K, v: V): (r: Assoc<K, V>)
    ensures Keys(r) == if k in Keys(m) then Keys(m) else Keys(m) + [k]
    ensures Get(r, k) == Some(v)
    ensures forall i :: 0 <= i < |m| && m[i].0 != k ==> r[i] == m[i]
    ensures DistinctKeys(m) ==> DistinctKeys(r)
  {
    match IndexOf(m, k)
    case None => m + [(k, v)]
    case Some(i) => m[i := (k, v)]
  }
}

=== FILE: examples.dfy ===
/**
 One loop step on a new or an existing key, and the groupings of two and
 three items that the test suite's examples take.
 */
module GrouperCases {
  import opened AssocList
  import opened GroupingSpec
  import opened Grouper

  /** An item with a new key opens a bucket at the end. */
  lemma StepNew<K, V>(key: V -> K, m: Groups<K, V>, x: V)
    requires DistinctKeys(m)
    requires forall i :: 0 <= i < |m| ==> m[i].0 != key(x)
    ensures Step(key, m, x) == m + [(key(x), [x])]
  {
  }

  /** An item whose key sits at position `p` extends that bucket only. */
  lemma StepExisting<K, V>(key: V -> K, m: Groups<K, V>, x: V, p: nat)
    requires DistinctKeys(m)
    requires p < |m| && m[p].0 == key(x)
    ensures Step(key, m, x) == m[p := (key(x), m[p].1 + [x])]
  {
  }

  /** Two items with different keys make two buckets, in input order. */
  lemma GroupTwo<K, V>(key: V -> K, a: V, b: V)
    requires key(a) != key(b)
    ensures GroupBy(key, [a, b]) == [(key(a), [a]), (key(b), [b])]
  {
  }

  /** Three items whose first and last share a key different from the middle one's. */
  lemma GroupOuterPair<K, V>(key: V -> K, a: V, b: V, c: V)
    requires key(a) == key(c) != key(b)
    ensures GroupBy(key, [a, b, c]) == [(key(a), [a, c]), (key(b), [b])]
  {
    var m := [(key(a), [a]), (key(b), [b])];
    GroupTwo(key, a, b);
    GroupBySnoc(key, [a, b], c);
    assert [a, b] + [c] == [a, b, c];
    StepExisting(key, m, c, 0);
    assert [a] + [c] == [a, c];
  }

  /** Three items with pairwise different keys make three one-item buckets, in input order. */
  lemma GroupThreeDistinct<K, V>(key: V -> K, a: V, b: V, c: V)
    requires key(a) != key(b) && key(a) != key(c) && key(b) != key(c)
    ensures GroupBy(key, [a, b, c]) == [(key(a), [a]), (key(b), [b]), (key(c), [c])]
  {
    var m := [(key(a), [a]), (key(b), [b])];
    GroupTwo(key, a, b);
    GroupBySnoc(key, [a, b], c);
    assert [a, b] + [c] == [a, b, c];
    assert GroupBy(key, [a, b, c]) == Step(key, m, c);
    StepNew(key, m, c);
    assert m + [(key(c), [c])] == [(key(a), [a]), (key(b), [b]), (key(c), [c])];
  }
}

/**
 The records of the repository's test suite, and what `groupBy` as written
 returns for them. The key read `item[property]` yields a string for a
 user's `name` or `role` and a product's `name`, and `undefined` for a name
 that neither the record nor `Object.prototype` defines. A dotted path such as `'category.type'` is
 such a name: it is not resolved segment by segment.
 */
module Examples {
  import opened AssocList
  import opened GroupingSpec
  import opened Grouper
  import opened GrouperCases

  /** The key values these examples produce: a string, or `undefined`. */
  datatype Value = Undefined | Str(s: string)

  datatype User = User(name: string, role: string)

  datatype Category = Category(kind: string)

  datatype Product = Product(name: string, category: Category)

  /**
   The names every plain object inherits from `Object.prototype`. Reading one
   of them yields a function or an object, not `undefined`; these reads are
   not modelled.
   */
  predicate InheritedName(property: string) {
    property in {
      "constructor", "hasOwnProperty", "isPrototypeOf", "propertyIsEnumerable",
      "toLocaleString", "toString", "valueOf", "__proto__", "__defineGetter__",
      "__defineSetter__", "__lookupGetter__", "__lookupSetter__"
    }
  }

  /** None of the names the examples read is inherited. */
  lemma ExampleNamesNotInherited()
    ensures !InheritedName("name") && !InheritedName("role")
    ensures !InheritedName("1522") && !InheritedName("category.type")
  {
  }

  /** `user[property]` for a name that is not inherited from `Object.prototype`. */
  function UserProperty(u: User, property: string): (v: Value)
    requires !InheritedName(property)
  {
    if property == "name" then Str(u.name)
    else if property == "role" then Str(u.role)
    else Undefined
  }

  /**
   `product[property]` for a name that is not inherited from
   `Object.prototype`; `category` itself holds an object and is not used as
   a key here.
   */
  function ProductProperty(p: Product, property: string): (v: Value)
    requires property != "category" && !InheritedName(property)
  {
    if property == "name" then Str(p.name) else Undefined
  }

  const Alice := User("Alice", "admin")
  const Bob := User("Bob", "user")
  const Charlie := User("Charlie", "admin")

  /** Grouping the three users by `'role'` puts `admin` first, holding Alice then Charlie, and `user` second, holding Bob. */
  lemma GroupUsersByRole()
    ensures GroupBy(u => UserProperty(u, "role"), [Alice, Bob, Charlie]) ==
      [(Str("admin"), [Alice, Charlie]), (Str("user"), [Bob])]
  {
    ExampleNamesNotInherited();
    var key := u => UserProperty(u, "role");
    assert key(Alice) == Str("admin") && key(Bob) == Str("user") && key(Charlie) == Str("admin");
    GroupOuterPair(key, Alice, Bob, Charlie);
  }

  /** Grouping the three users by `'name'` gives each user a bucket of their own. */
  lemma GroupUsersByName()
    ensures GroupBy(u => UserProperty(u, "name"), [Alice, Bob, Charlie]) ==
      [(Str("Alice"), [Alice]), (Str("Bob"), [Bob]), (Str("Charlie"), [Charlie])]
  {
    ExampleNamesNotInherited();
    var key := u => UserProperty(u, "name");
    assert key(Alice) == Str("Alice") && key(Bob) == Str("Bob") && key(Charlie) == Str("Charlie");
    GroupThreeDistinct(key, Alice, Bob, Charlie);
  }

  /**
   A property name the users lack (`'1522'`) does not make `groupBy` throw:
   every user reads `undefined`, so all of them land in one bucket.
   */
  lemma UnknownPropertyGroupsUnderUndefined(users: seq<User>)
    requires |users| > 0
    ensures GroupBy(u => UserProperty(u, "1522"), users) == [(Undefined, users)]
  {
    ExampleNamesNotInherited();
    assert "1522"[0] != "name"[0] && "1522"[0] != "role"[0];
    var key := u => UserProperty(u, "1522");
    assert forall u :: key(u) == Undefined;
    GroupByConstantKey(key, users, Undefined);
  }

  /**
   A dotted path is read as one property name, which no product has, so
   every product lands in the single `undefined` bucket instead of being
   grouped by its category's type.
   */
  lemma DottedPathIsNotResolved(products: seq<Product>)
    requires |products| > 0
    ensures GroupBy(p => ProductProperty(p, "category.type"), products) == [(Undefined, products)]
  {
    ExampleNamesNotInherited();
    var key := p => ProductProperty(p, "category.type");
    assert forall p :: key(p) == Undefined;
    GroupByConstantKey(key, products, Undefined);
  }
}

=== FILE: grouper.dfy ===
/**
 The `groupBy` function of src/index.ts: one pass over the list that buckets
 every item under its key in an insertion-ordered map.

 The key of an item is `item[property]`; here it is an arbitrary total
 function `key`, compared with `==`. Only that single property read is what
 the function does: it does not resolve dotted paths such as
 `'category.type'`, does not call a selector function, and never throws for a
 property the items lack (such an item is read as `undefined` and grouped
 under that key). The repository's tests expect all three
 (src/__test__/index.test.ts:53-60, 77-90); this model follows the function.
 */
module Grouper {
  import opened AssocList
  import opened GroupingSpec

  /**
   The result is a well-formed grouping under `key`: distinct keys, every
   bucket non-empty, every item in the bucket of its own key.
   */
  ghost predicate WellFormed<K, V>(key: V -> K, m: Groups<K, V>) {
    && DistinctKeys(m)
    && (forall i :: 0 <= i < |m| ==> |m[i].1| > 0)
    && (forall i, j :: 0 <= i < |m| && 0 <= j < |m[i].1| ==> key(m[i].1[j]) == m[i].0)
  }

  /**
   One iteration of the `forEach` body. A stored collection is always an
   array, and arrays are truthy, so `!collection` holds exactly when the key
   is absent.
   */
  function Step<K(==), V>(key: V -> K, m: Groups<K, V>, item: V): (r: Groups<K, V>)
    requires DistinctKeys(m)
    ensures DistinctKeys(r)
    ensures |r| == if key(item) in Keys(m) then |m| else |m| + 1
    ensures forall i :: 0 <= i < |m| ==>
      r[i] == if m[i].0 == key(item) then (m[i].0, m[i].1 + [item]) else m[i]
    ensures key(item) !in Keys(m) ==> r[|m|] == (key(item), [item])
    ensures WellFormed(key, m) ==> WellFormed(key, r)
  {
    var k := key(item);
    match Get(m, k)
    case None => Set(m, k, [item])
    case Some(collection) => Set(m, k, collection + [item])
  }

  /** `Step` in terms of the position of the item's key, as a loop over the entries finds it. */
  lemma StepAt<K, V>(key: V -> K, m: Groups<K, V>, item: V)
    requires DistinctKeys(m)
    ensures IndexOf(m, key(item)).None? ==> Step(key, m, item) == m + [(key(item), [item])]
    ensures IndexOf(m, key(item)).Some? ==>
      var p := IndexOf(m, key(item)).value;
      Step(key, m, item) == m[p := (key(item), m[p].1 + [item])]
  {
  }

  /** `groupBy(list, property)`: the map after the loop has visited every item in order. */
  function GroupBy<K(==), V>(key: V -> K, list: seq<V>): (r: Groups<K, V>)
    ensures WellFormed(key, r)
    ensures |r| <= |list|
    ensures |r| == 0 <==> |list| == 0
  {
    if |list| == 0 then []
    else Step(key, GroupBy(key, list[..|list| - 1]), list[|list| - 1])
  }

  /** Unfolding one iteration at the end of the list. */
  lemma GroupBySnoc<K, V>(key: V -> K, list: seq<V>, x: V)
    ensures GroupBy(key, list + [x]) == Step(key, GroupBy(key, list), x)
  {
    assert (list + [x])[..|list|] == list;
  }

  /** The keys of the result are exactly the keys of the input's items. */
  lemma {:induction false} GroupByKeys<K, V>(key: V -> K, list: seq<V>, k: K)
    ensures k in Keys(GroupBy(key, list)) <==> Occurs(key, list, k)
  {
    if |list| > 0 {
      var init, x := list[..|list| - 1], list[|list| - 1];
      assert list == init + [x];
      GroupByKeys(key, init, k);
      var m := GroupBy(key, init);
      var r := GroupBy(key, list);
      if Occurs(key, init, k) {
        var i :| 0 <= i < |init| && key(init[i]) == k;
        assert key(list[i]) == k;
      }
      if Occurs(key, list, k) && key(x) != k {
        var i :| 0 <= i < |list| && key(list[i]) == k;
        assert key(init[i]) == k;
      }
      if k in Keys(m) {
        var i :| 0 <= i < |m| && Keys(m)[i] == k;
        assert Keys(r)[i] == k;
      }
      if k in Keys(r) {
        var i :| 0 <= i < |r| && Keys(r)[i] == k;
        if i < |m| {
          assert Keys(m)[i] == k;
        }
      }
      if key(x) == k {
        if k !in Keys(m) {
          assert Keys(r)[|m|] == k;
        }
      }
    }
  }

  /**
   Grouping is stable: the bucket of each key holds exactly the input items
   with that key, in their original relative order.
   */
  lemma {:induction false} GroupByBuckets<K, V>(key: V -> K, list: seq<V>)
    ensures forall i :: 0 <= i < |GroupBy(key, list)| ==>
      GroupBy(key, list)[i].1 == Filter(key, list, GroupBy(key, list)[i].0)
  {
    if |list| > 0 {
      var init, x := list[..|list| - 1], list[|list| - 1];
      assert list == init + [x];
      GroupByBuckets(key, init);
      var m := GroupBy(key, init);
      var r := GroupBy(key, list);
      forall i | 0 <= i < |r|
        ensures r[i].1 == Filter(key, list, r[i].0)
      {
        FilterSnoc(key, init, x, r[i].0);
        if i == |m| {
          GroupByKeys(key, init, key(x));
          FilterEmptyUnlessOccurs(key, init, key(x));
        }
      }
    }
  }

  /** Keys appear in the order in which they first occur in the input. */
  lemma {:induction false} GroupByOrder<K, V>(key: V -> K, list: seq<V>)
    ensures forall i, j :: 0 <= i < j < |GroupBy(key, list)| ==>
      FirstIndex(key, list, GroupBy(key, list)[i].0) < FirstIndex(key, list, GroupBy(key, list)[j].0)
  {
    if |list| > 0 {
      var init, x := list[..|list| - 1], list[|list| - 1];
      assert list == init + [x];
      GroupByOrder(key, init);
      var m := GroupBy(key, init);
      var r := GroupBy(key, list);
      forall i | 0 <= i < |m|
        ensures FirstIndex(key, list, r[i].0) == FirstIndex(key, init, m[i].0) < |init|
      {
        assert Keys(m)[i] == m[i].0;
        GroupByKeys(key, init, m[i].0);
        OccursIffFirstIndex(key, init, m[i].0);
        FirstIndexSnoc(key, init, x, m[i].0);
      }
      if |r| > |m| {
        GroupByKeys(key, init, key(x));
        OccursIffFirstIndex(key, init, key(x));
        FirstIndexSnoc(key, init, x, key(x));
      }
    }
  }

  /**
   Looking a key up in the result, as a caller does with `map.get(k)`, finds
   exactly the items with that key, and finds nothing for a key no item has.
   */
  lemma GroupByLookup<K, V>(key: V -> K, list: seq<V>, k: K)
    ensures Get(GroupBy(key, list), k) ==
      if Occurs(key, list, k) then Some(Filter(key, list, k)) else None
  {
    var r := GroupBy(key, list);
    GroupByKeys(key, list, k);
    if k in Keys(r) {
      var i :| 0 <= i < |r| && Keys(r)[i] == k;
      GroupByBuckets(key, list);
      assert r[i].0 == k;
    }
  }

  /** The buckets laid end to end are a permutation of the input. */
  lemma {:induction false} GroupByPermutation<K, V>(key: V -> K, list: seq<V>)
    ensures multiset(Flatten(GroupBy(key, list))) == multiset(list)
  {
    if |list| > 0 {
      var init, x := list[..|list| - 1], list[|list| - 1];
      assert list == init + [x];
      GroupByPermutation(key, init);
      var m := GroupBy(key, init);
      var r := GroupBy(key, list);
      if |r| > |m| {
        assert r == m + [(key(x), [x])];
        FlattenAppend(m, [(key(x), [x])]);
        assert Flatten([(key(x), [x])]) == [x];
      } else {
        var p :| 0 <= p < |m| && Keys(m)[p] == key(x);
        assert r == m[p := (m[p].0, m[p].1 + [x])];
        FlattenExtendAt(m, p, x);
      }
    }
  }

  /** The bucket lengths add up to the length of the input: no item is lost or duplicated. */
  lemma GroupBySize<K, V>(key: V -> K, list: seq<V>)
    ensures TotalSize(GroupBy(key, list)) == |list|
  {
    GroupByPermutation(key, list);
    FlattenLength(GroupBy(key, list));
    assert |multiset(Flatten(GroupBy(key, list)))| == |multiset(list)|;
  }

  /** `groupBy` meets the reference definition of a grouping. */
  lemma GroupByIsGrouping<K, V>(key: V -> K, list: seq<V>)
    ensures IsGrouping(key, list, GroupBy(key, list))
  {
    var r := GroupBy(key, list);
    forall i | 0 <= i < |r|
      ensures Occurs(key, list, r[i].0)
    {
      assert Keys(r)[i] == r[i].0;
      GroupByKeys(key, list, r[i].0);
    }
    forall j | 0 <= j < |list|
      ensures key(list[j]) in Keys(r)
    {
      GroupByKeys(key, list, key(list[j]));
    }
    GroupByBuckets(key, list);
    GroupByOrder(key, list);
  }

  /** The reference definition pins the result down: any grouping of the list is the one `groupBy` returns. */
  lemma GroupByUnique<K, V>(key: V -> K, list: seq<V>, m: Groups<K, V>)
    requires IsGrouping(key, list, m)
    ensures m == GroupBy(key, list)
  {
    var g := GroupBy(key, list);
    GroupByIsGrouping(key, list);
    var rank := (k: K) => FirstIndex(key, list, k);
    forall k
      ensures k in Keys(m) <==> k in Keys(g)
    {
      if k in Keys(m) {
        var i :| 0 <= i < |m| && Keys(m)[i] == k;
        assert Occurs(key, list, k);
        var j :| 0 <= j < |list| && key(list[j]) == k;
      }
      if k in Keys(g) {
        var i :| 0 <= i < |g| && Keys(g)[i] == k;
        assert Occurs(key, list, k);
        var j :| 0 <= j < |list| && key(list[j]) == k;
      }
    }
    RankSortedUnique(Keys(m), Keys(g), rank);
    assert |m| == |g|;
    forall i | 0 <= i < |m|
      ensures m[i] == g[i]
    {
      assert Keys(m)[i] == Keys(g)[i];
    }
  }

  /** An input whose items all share one key yields a single bucket holding the whole input. */
  lemma {:induction false} GroupByConstantKey<K, V>(key: V -> K, list: seq<V>, c: K)
    requires |list| > 0
    requires forall j :: 0 <= j < |list| ==> key(list[j]) == c
    ensures GroupBy(key, list) == [(c, list)]
  {
    var init, x := list[..|list| - 1], list[|list| - 1];
    assert list == init + [x];
    var m := GroupBy(key, init);
    if |init| == 0 {
      assert m == [];
    } else {
      GroupByConstantKey(key, init, c);
      assert Keys(m)[0] == c;
    }
    var r := Step(key, m, x);
    assert r[0] == (c, init + [x]);
    assert r == [(c, list)];
  }
}

=== FILE: grouper_loop.dfy ===
/**
 The `forEach` loop of `groupBy` written as a loop over the list, with the
 lookup `map.get(key)` as a scan of the insertion-ordered map.
 */
module GrouperLoop {
  import opened AssocList
  import opened GroupingSpec
  import opened Grouper

  /** `map.get(key)`: scans the entries in iteration order for `k`. */
  method FindKey<K(==), V>(m: Assoc<K, V>, k: K) returns (r: Option<nat>)
    ensures r.Some? ==> r.value < |m| && m[r.value].0 == k
    ensures r.None? ==> k !in Keys(m)
    ensures r == IndexOf(m, k)
  {
    var i := 0;
    while i < |m|
      invariant 0 <= i <= |m|
      invariant forall j :: 0 <= j < i ==> m[j].0 != k
    {
      if m[i].0 == k {
        return Some(i);
      }
      i := i + 1;
    }
    return None;
  }

  /** Visiting item `i` takes the grouping of the first `i` items to the grouping of the first `i + 1`. */
  lemma PrefixStep<K, V>(key: V -> K, list: seq<V>, i: nat)
    requires i < |list|
    ensures GroupBy(key, list[..i + 1]) == Step(key, GroupBy(key, list[..i]), list[i])
  {
    assert list[..i + 1] == list[..i] + [list[i]];
    GroupBySnoc(key, list[..i], list[i]);
  }

  /** `groupBy(list, property)` as the source runs it: one loop step per item. */
  method GroupByLoop<K(==), V>(key: V -> K, list: seq<V>) returns (m: Groups<K, V>)
    ensures m == GroupBy(key, list)
    ensures IsGrouping(key, list, m)
  {
    m := [];
    var i := 0;
    while i < |list|
      invariant 0 <= i <= |list|
      invariant m == GroupBy(key, list[..i])
    {
      var item := list[i];
      var k := key(item);
      var found := FindKey(m, k);
      var next: Groups<K, V>;
      match found {
        case None =>
          next := m + [(k, [item])];
        case Some(p) =>
          next := m[p := (k, m[p].1 + [item])];
      }
      StepAt(key, m, item);
      PrefixStep(key, list, i);
      m := next;
      i := i + 1;
    }
    assert list[..|list|] == list;
    GroupByIsGrouping(key, list);
  }
}

=== FILE: grouping_spec.dfy ===
/**
 What a correct grouping of a list is, stated without reference to how
 `groupBy` builds it: a reference definition to check the fold against.
 */
module GroupingSpec {
  import opened AssocList

  /** The result of grouping: an ordered map from a key to its bucket of items. */
  type Groups<K, V> = Assoc<K, seq<V>>

  /** Some item of `list` has key `k`. */
  ghost predicate Occurs<K, V>(key: V -> K, list: seq<V>, k: K) {
    exists i :: 0 <= i < |list| && key(list[i]) == k
  }

  /** The items of `list` whose key is `k`, in their original relative order. */
  function Filter<K(==), V>(key: V -> K, list: seq<V>, k: K): (s: seq<V>)
    ensures |s| <= |list|
    ensures forall j :: 0 <= j < |s| ==> key(s[j]) == k
  {
    if |list| == 0 then []
    else (if key(list[0]) == k then [list[0]] else []) + Filter(key, list[1..], k)
  }

  /** Index of the first item of `list` with key `k`, or `|list|` when there is none. */
  function FirstIndex<K(==), V>(key: V -> K, list: seq<V>, k: K): (r: nat)
    ensures r <= |list|
    ensures forall j :: 0 <= j < r ==> key(list[j]) != k
    ensures r < |list| ==> key(list[r]) == k
  {
    if |list| == 0 then 0
    else if key(list[0]) == k then 0
    else 1 + FirstIndex(key, list[1..], k)
  }

  /** All buckets laid end to end, in key order. */
  function Flatten<K, V>(m: Groups<K, V>): (s: seq<V>) {
    if |m| == 0 then [] else m[0].1 + Flatten(m[1..])
  }

  /** The sum of the bucket lengths. */
  function TotalSize<K, V>(m: Groups<K, V>): (n: nat) {
    if |m| == 0 then 0 else |m[0].1| + TotalSize(m[1..])
  }

  /**
   `m` groups `list` by `key`: one entry per key that occurs in the list and
   no other, each bucket holding exactly the items with that key in input
   order, and the keys ordered by where they first occur in the list.
   */
  ghost predicate IsGrouping<K, V>(key: V -> K, list: seq<V>, m: Groups<K, V>) {
    && DistinctKeys(m)
    && (forall i :: 0 <= i < |m| ==> Occurs(key, list, m[i].0))
    && (forall j :: 0 <= j < |list| ==> key(list[j]) in Keys(m))
    && (forall i :: 0 <= i < |m| ==> m[i].1 == Filter(key, list, m[i].0))
    && (forall i, j :: 0 <= i < j < |m| ==> FirstIndex(key, list, m[i].0) < FirstIndex(key, list, m[j].0))
  }

  /** `k` occurs in `list` exactly when its first index lies inside the list. */
  lemma OccursIffFirstIndex<K, V>(key: V -> K, list: seq<V>, k: K)
    ensures Occurs(key, list, k) <==> FirstIndex(key, list, k) < |list|
  {
  }

  /** Filtering a list extended by one item extends the filtered list by that item or by nothing. */
  lemma {:induction false} FilterSnoc<K, V>(key: V -> K, list: seq<V>, x: V, k: K)
    ensures Filter(key, list + [x], k) == Filter(key, list, k) + (if key(x) == k then [x] else [])
  {
    if |list| == 0 {
      assert (list + [x])[1..] == [];
    } else {
      assert (list + [x])[1..] == list[1..] + [x];
      FilterSnoc(key, list[1..], x, k);
    }
  }

  /** Only a key that occurs has a non-empty filter. */
  lemma {:induction false} FilterEmptyUnlessOccurs<K, V>(key: V -> K, list: seq<V>, k: K)
    ensures Filter(key, list, k) == [] <==> !Occurs(key, list, k)
  {
    if |list| > 0 {
      FilterEmptyUnlessOccurs(key, list[1..], k);
      if Occurs(key, list[1..], k) {
        var i :| 0 <= i < |list[1..]| && key(list[1..][i]) == k;
        assert key(list[i + 1]) == k;
      }
      if Occurs(key, list, k) && key(list[0]) != k {
        var i :| 0 <= i < |list| && key(list[i]) == k;
        assert key(list[1..][i - 1]) == k;
      }
    }
  }

  /** Extending a list by one item leaves the first index of a key already present unchanged. */
  lemma FirstIndexSnoc<K, V>(key: V -> K, list: seq<V>, x: V, k: K)
    ensures FirstIndex(key, list + [x], k) ==
      if FirstIndex(key, list, k) < |list| then FirstIndex(key, list, k)
      else if key(x) == k then |list|
      else |list| + 1
  {
    var r0 := FirstIndex(key, list, k);
    if r0 < |list| {
      assert (list + [x])[r0] == list[r0];
    } else {
      assert (list + [x])[|list|] == x;
    }
  }

  /** Laying out `a + b` lays out `a`, then `b`. */
  lemma {:induction false} FlattenAppend<K, V>(a: Groups<K, V>, b: Groups<K, V>)
    ensures Flatten(a + b) == Flatten(a) + Flatten(b)
  {
    if |a| == 0 {
      assert a + b == b;
    } else {
      assert (a + b)[1..] == a[1..] + b;
      FlattenAppend(a[1..], b);
    }
  }

  /** Appending `x` to one bucket adds exactly `x` to the laid-out buckets. */
  lemma {:induction false} FlattenExtendAt<K, V>(m: Groups<K, V>, p: nat, x: V)
    requires p < |m|
    ensures multiset(Flatten(m[p := (m[p].0, m[p].1 + [x])])) == multiset(Flatten(m)) + multiset{x}
  {
    var m' := m[p := (m[p].0, m[p].1 + [x])];
    if p == 0 {
      assert m'[1..] == m[1..];
    } else {
      assert m'[1..] == m[1..][p - 1 := (m[p].0, m[p].1 + [x])];
      FlattenExtendAt(m[1..], p - 1, x);
    }
  }

  /** The laid-out buckets are exactly as long as the buckets' lengths add up to. */
  lemma {:induction false} FlattenLength<K, V>(m: Groups<K, V>)
    ensures |Flatten(m)| == TotalSize(m)
  {
    if |m| > 0 {
      FlattenLength(m[1..]);
    }
  }

  /**
   Two sequences with the same elements, both listed in strictly increasing
   `rank`, are the same sequence.
   */
  lemma {:induction false} RankSortedUnique<T>(a: seq<T>, b: seq<T>, rank: T -> int)
    requires forall i, j :: 0 <= i < j < |a| ==> rank(a[i]) < rank(a[j])
    requires forall i, j :: 0 <= i < j < |b| ==> rank(b[i]) < rank(b[j])
    requires forall x :: x in a <==> x in b
    ensures a == b
  {
    if |a| > 0 {
      assert a[0] in b;
    }
    if |b| > 0 {
      assert b[0] in a;
    }
    if |a| > 0 && |b| > 0 {
      var j :| 0 <= j < |b| && b[j] == a[0];
      var i :| 0 <= i < |a| && a[i] == b[0];
      assert rank(b[0]) <= rank(b[j]);
      assert rank(a[0]) <= rank(a[i]);
      assert i == 0;
      forall x
        ensures x in a[1..] <==> x in b[1..]
      {
        if x in a[1..] {
          var p :| 1 <= p < |a| && a[p] == x;
          assert x in b;
          var q :| 0 <= q < |b| && b[q] == x;
          assert q != 0;
          assert b[1..][q - 1] == x;
        }
        if x in b[1..] {
          var q :| 1 <= q < |b| && b[q] == x;
          assert x in a;
          var p :| 0 <= p < |a| && a[p] == x;
          assert p != 0;
          assert a[1..][p - 1] == x;
        }
      }
      RankSortedUnique(a[1..], b[1..], rank);
      assert a == [a[0]] + a[1..];
      assert b == [b[0]] + b[1..];
    }
  }
}
